=== FILE: README.md ===
# Thumbnail handlers, modelled in Dafny

The repository holds two versions of an AWS Lambda handler that runs when an
image is uploaded to an S3 bucket. It reads the image, makes a JPEG thumbnail
of it, stores that under a key derived from the source key, and publishes an
SNS notification. The two versions are `docs/lambda-function.py` and
`lamcode.py`. Almost everything they do is a boto3 or PIL call. This project
models the sequential logic between those calls:

- **Destination key** (`PosixPath`, `ThumbKey`). `os.path.splitext` and
  `os.path.basename` are written as pure string functions. The docs version
  names the thumbnail `thumbnails/<file name without extension>_thumb.jpg`.
  The lamcode version keeps the directory path:
  `thumbnails/<key without extension>_thumb.jpg`.
- **Per-record loop** (`Events`, `DocsHandler`, `LamcodeHandler`). Each record
  of the event is reduced to what decides the handler's path:
  - whether its `bucket` and `key` fields are present;
  - which call raises first, if any (fetch, decode, store or success publish);
  - for the docs version, whether the per-record error notification raises.
  
  A handler produces the trace of calls that returned (fetches, thumbnail
  puts, notifications) and its reply: a status code, or an exception that
  leaves the handler. The docs version keeps failures inside their record.
  The lamcode version stops at the first failure and answers 500.
- **Image-mode rule** (`ImageMode`). Modes RGBA, LA and P are flattened onto
  a white RGB background; other modes are kept. Only the mode label is
  modelled.
- **Size text** (`SizeText`). `thumbnail_size_text` picks a unit band (B, KB
  or MB). A size in bytes is printed exactly as `"<n> B"`. A size in KB or MB
  is printed as the amount rounded to two decimals, a tie going to the even
  hundredth, followed by the unit.

Calls to S3, SNS and PIL do not appear as code. Each is a success-or-raise
outcome carried by the record (`Record.fault`, `Record.alertFails`), or a
handler parameter (`alarmFails`: whether the outer error notification
raises).

## Model

| member | source | states |
|---|---|---|
| PosixPath.RFind | docs/lambda-function.py:87-88 | `str.rfind`: the result is -1 or an index holding the character, and no later index holds it. |
| PosixPath.Basename | docs/lambda-function.py:88 | The result is the longest suffix of the path that holds no `/`. It is the whole path, or the character before it is `/`. |
| PosixPath.SplitExt | docs/lambda-function.py:87 | Root and extension concatenate back to the path. The extension is empty, or it starts with a dot and holds no `/` and no further dot, so only the last extension is removed. |
| PosixPath.ExtensionFound | docs/lambda-function.py:87 | The extension is non-empty exactly when the final component has a dot after some non-dot character. Leading dots (`.hidden`) never start an extension, and dots in directory names never count. |
| PosixPath.BasenameRootCommute | docs/lambda-function.py:87-88 | Taking the basename of the extension-stripped key gives the same result as stripping the extension of the basename. |
| PosixPath.RootKeepsDirectory | lamcode.py:34 | Stripping the extension keeps the directory part of the key. The root is the directory prefix followed by the extension-stripped file name. |
| PosixPath.DoubleExtensionExample | docs/lambda-function.py:87 | `a.tar.gz` splits into `a.tar` and `.gz`. |
| PosixPath.HiddenFileExample | docs/lambda-function.py:87 | `.hidden` keeps its whole name and has no extension. |
| PosixPath.DottedDirectoryExample | docs/lambda-function.py:87 | In `v1.2/readme`, the dot in the directory name is not an extension. |
| ThumbKey.DocsKey | docs/lambda-function.py:87-88 | The docs key starts with `thumbnails/` and ends with `_thumb.jpg`. The part between them holds no `/`. That part plus the extension of the source file name gives back the source file name. |
| ThumbKey.LamcodeKey | lamcode.py:34 | The lamcode key starts with `thumbnails/` and ends with `_thumb.jpg`. The part between them plus the source key's extension gives back the source key, so it starts with the source key's directory prefix. |
| ThumbKey.DocsKeySameIff | docs/lambda-function.py:87-95 | Two source keys get the same docs thumbnail key exactly when their extension-stripped file names agree. Equal keys always map to the same destination, so a re-delivery overwrites the same object. Keys in different folders can collide. |
| ThumbKey.LamcodeKeySameIff | lamcode.py:34-41 | Two source keys get the same lamcode thumbnail key exactly when they agree up to the extension. |
| ThumbKey.DocsIsLamcodeOfBasename | docs/lambda-function.py:87-88 | The docs rule gives the same key as the lamcode rule applied to the file name alone. |
| ThumbKey.DocsKeyIgnoresDirectory | docs/lambda-function.py:87-88 | The docs key of a path equals the docs key of its file name. |
| ThumbKey.FlatKeysAgree | lamcode.py:34 | For a key with no `/`, both handlers store the thumbnail under the same key. |
| Events.Run | lamcode.py:20-49 | A record fails exactly when a field is missing or a call raises. It stores a thumbnail exactly when `put_object` is reached and returns. It publishes only when nothing raised, and that publish is its last call, right after the store. |
| Events.HealthyRun | docs/lambda-function.py:55-140 | A record where nothing raises makes exactly three calls, in order: fetch the source, store the thumbnail, publish success for its key. |
| DocsHandler.Process | docs/lambda-function.py:47-179 | An exception escapes a record exactly when the record fails and its error notification raises too. Any other record publishes exactly one notification: success if healthy, otherwise an error naming its key. A record stores a thumbnail exactly when its put returned, even if it then reports an error. Its calls are those of the record run, in order, followed by the error notification when one is sent, so the put comes before the success publish and the error notice comes last. |
| DocsHandler.Finish | docs/lambda-function.py:182-238 | The handler answers 200 with the record count when nothing escaped, and then makes no further call. Otherwise it answers 500, and the trace grows by exactly one call, the critical notification, unless that raises. No store is added on either path. |
| DocsHandler.Handle | docs/lambda-function.py:41-238 | The handler never raises. It answers 200, counting every record, exactly when no record's exception escapes, whatever the number of failed records; otherwise it answers 500. A missing `Records` field means no records, no calls and a 200 with count 0. |
| DocsHandler.FailuresAreIsolated | docs/lambda-function.py:144-192 | If no error notification raises, the reply is 200 with `records_processed` equal to the record count. There is exactly one notification per record, in record order, and it is an error for exactly the failing records. Every record whose put returned keeps its thumbnail. |
| DocsHandler.AllHealthy | docs/lambda-function.py:46-192 | If every record succeeds, the reply is 200 with the record count. The trace holds exactly three calls per record, in record order: fetch the source, store the thumbnail under the docs key, then publish success. |
| DocsHandler.EscapeEndsLoop | docs/lambda-function.py:172-238 | When the error notification of the first failing record raises, the trace is: the calls of the records before it, its own calls, then the critical notification unless that raises. The reply is 500. |
| DocsHandler.EscapeIgnoresLater | docs/lambda-function.py:46-194 | Records after the first escaping one are never fetched, stored or notified about. |
| DocsHandler.RedeliveryOverwrites | docs/lambda-function.py:87-104 | Two deliveries of a record whose puts return store under the same key, whatever else failed. |
| Events.Loop | lamcode.py:19-51 | The loop ends in failure exactly when some record's attempt fails. The same fold is the docs loop at docs/lambda-function.py:46-179, where an attempt fails only when an exception escapes the record's own try block. |
| Events.LoopContinues | lamcode.py:19-51 | After attempts that do not fail, the loop goes on with the next records as if started afresh. |
| Events.LoopStopsAt | lamcode.py:19-54 | The loop stops at the first failing attempt, after the calls of the records before it and that record's own calls. Records after it have no influence. |
| LamcodeHandler.Finish | lamcode.py:53-61 | The handler answers 200 when nothing raised. Otherwise the trace grows by exactly one call, the error notification, and the reply is 500. If that publish raises, nothing is added and the exception leaves the handler. No store is undone. |
| LamcodeHandler.Handle | lamcode.py:17-61 | The handler answers 200 exactly when the event has a `Records` field and every record is healthy. Otherwise it answers 500, or raises if the error notification raises. An event without `Records` goes straight to the error path. |
| Events.LoopThreeEach | lamcode.py:19-51 | Records that each make three calls and do not fail leave their calls side by side in the loop's trace, in record order. |
| Events.HealthyLoopTrace | lamcode.py:19-51 | When every record is healthy, the loop over their runs does not fail, and its calls come three per record, in record order: fetch, store the thumbnail under the rule's key, publish success. The docs handler relies on the same fact. |
| LamcodeHandler.LoopHealthyTrace | lamcode.py:19-51 | If every record is healthy, the loop does not fail and its calls come three per record, in record order: fetch, store the lamcode key, publish success. |
| LamcodeHandler.AllHealthy | lamcode.py:19-53 | If every record succeeds, the reply is 200. The trace holds one fetch, one put and one success publish per record, in record order, with each put before its publish. |
| LamcodeHandler.AbortAt | lamcode.py:18-61 | When a record is the first to raise, the trace is: the calls of the healthy records before it, the calls it got through, then the error path. |
| LamcodeHandler.AbortIgnoresLater | lamcode.py:19-54 | Records after the first one that raises are never fetched, stored or notified about. |
| LamcodeHandler.StoredThumbnailsKept | lamcode.py:36-61 | Nothing is rolled back. The thumbnails of the records before the failing one stay, in order, and so does its own if its put returned. |
| LamcodeHandler.OneErrorNotice | lamcode.py:43-61 | A failure gives exactly one error notification, unless that publish raises. It follows the success notifications of the earlier records, in order. |
| LamcodeHandler.RedeliveryOverwrites | lamcode.py:34-41 | Two deliveries of a record whose puts return store under the same key, whatever else failed. |
| ImageMode.PasteAsWritten | docs/lambda-function.py:69-72 | As written, a P image is converted to RGBA before the paste. The alpha band is used as the mask for every flattened mode except LA. |
| ImageMode.AlphaIgnoredForLA | docs/lambda-function.py:72 | An LA image carries an alpha band, yet the paste as written does not use it as the mask. |
| ImageMode.PasteIntended | docs/lambda-function.py:69-72 | In the corrected paste, every flattened mode is masked by its alpha band. The image pasted is the same as in the paste as written. |
| ImageMode.PasteIntendedDiffersOnlyForLA | docs/lambda-function.py:67-72 | The corrected paste differs from the paste as written exactly for LA, and only in the mask. |
| ImageMode.Prepare | docs/lambda-function.py:67-73 | An image is flattened exactly when its mode is RGBA, LA or P. It is pasted with the paste as written: through its alpha band unless it is LA, which is pasted without a mask. |
| ImageMode.PrepareIntended | docs/lambda-function.py:67-73 | With the corrected paste, an image is flattened exactly when its mode is RGBA, LA or P, and then always through its alpha band. |
| ImageMode.PrepareDiffersOnlyForLA | docs/lambda-function.py:67-73 | The correction changes the preparation of LA images and of no other mode. |
| ImageMode.Normalise | docs/lambda-function.py:67-73 | RGBA, LA and P become RGB. Every other mode is left unchanged, and no mode that needs flattening is ever passed on. |
| ImageMode.NormaliseIdempotent | docs/lambda-function.py:67-73 | Normalising a second time changes nothing. |
| SizeText.Band | docs/lambda-function.py:244-249 | The band is B below 1024 bytes, KB from 1024 up to 1024*1024 bytes, and MB from there on. |
| SizeText.BandMonotone | docs/lambda-function.py:244-249 | A larger size never gets a smaller unit. |
| SizeText.RoundHalfEven | docs/lambda-function.py:247-249 | The rounded quotient is within half a divisor of the exact one, and it is even when it lies exactly half a divisor away. That is how `:.2f` rounds a double that holds the quotient exactly. |
| SizeText.ShownAmountRange | docs/lambda-function.py:246-249 | The KB amount, in hundredths, runs from 100 to 102400, so sizes just below 1024*1024 bytes show `1024.00 KB`. The MB amount is at least 1.00. |
| SizeText.TopOfKilobytesExample | docs/lambda-function.py:246-247 | 1048575 bytes are shown as `1024.00 KB`. |
| SizeText.TieToEvenDownExample | docs/lambda-function.py:247 | 1152 bytes (1.125 KB, a tie) are shown as `1.12 KB`. |
| SizeText.TieToEvenUpExample | docs/lambda-function.py:247 | 1408 bytes (1.375 KB, a tie) are shown as `1.38 KB`. |
| SizeText.Decimal | docs/lambda-function.py:245 | The decimal text of a size is non-empty, all digits, and has no leading zero. |
| SizeText.DecimalRoundTrip | docs/lambda-function.py:245 | Reading the decimal text of a number back gives the number. |
| SizeText.SizeText | docs/lambda-function.py:241-249 | The text ends with the unit of the size's band: `" B"`, `" KB"` or `" MB"`. |
| SizeText.Fixed2RoundTrip | docs/lambda-function.py:247-249 | Reading back an amount written with two decimals gives the amount in hundredths. |
| SizeText.ScaledTextRoundTrip | docs/lambda-function.py:246-249 | From 1024 bytes on, the text is a two-decimal amount followed by the unit, and the whole part has no leading zero. The amount read back is the size in that unit rounded to the nearest hundredth, ties to even. |
| SizeText.ExactTextRoundTrip | docs/lambda-function.py:244-245 | In the bytes band the text is 1 to 4 digits with no leading zero, followed by `" B"`, and the number read back from it is the size. |

## Left out

- boto3 `get_object`, `put_object` and SNS `publish` are not modelled. Each one only returns or raises, as the record or the `alarmFails` parameter says. Bodies, metadata, bucket names and topic ARNs are not modelled. A stored thumbnail is identified by its key alone.
- PIL decoding, `thumbnail()` resizing with LANCZOS, and JPEG encoding at quality 80 are library behaviour. They are one `Decode` outcome. That includes `save` raising for a mode JPEG cannot hold (for example PA).
- The pixels of the white-background paste are not modelled. Only the mode label and the mask choice are.
- Sizes of 2^53 bytes or more are not modelled apart. There, the double `size / 1024` would no longer be exact, while the model still rounds the exact quotient. A thumbnail is never that large.
- Timestamps (`datetime.now()`), logging, and the wording of the notification subjects and messages are left out. Notices keep only their kind and the source key.
- Environment-variable lookup of the thumbnail bucket and topic is left out.
- In the docs version, an exception from `json.dumps(event)` (line 43) or from an event that is not a mapping is not modelled. Events are assumed to be JSON mappings whose `Records` field, when present, is a list. A `Records` value such as `null` would make the loop at line 46 raise and answer 500, but the model cannot express it: a missing field is read as no records. Records are assumed to be mappings, so building the error message itself never raises.
- The exception type and message shown in notifications and in the 500 body are not modelled.
- Concurrency, at-least-once delivery and the last-writer-wins race between two deliveries are not modelled. Only the fact that they write the same key is stated.
- A suffix allow-list, retries, a size guard and a timeout are not modelled, because neither handler has them.

## Findings

| source | as written | input that shows it | evidently intended | confidence | as-written member | corrected member |
|---|---|---|---|---|---|---|
| docs/lambda-function.py:72 | the paste onto the white background uses the image's alpha band as the mask only when the pasted image is RGBA | an image in mode LA with transparent pixels | every flattened image, LA included, composited onto white through its alpha band, as the white background built at line 69 is for | medium; not executed | ImageMode.PasteAsWritten | ImageMode.PasteIntended |

=== FILE: docshandler.dfy ===
/**
 * The handler of docs/lambda-function.py. Every record runs in its own try
 * block: a record that raises gets an error notification and the loop moves
 * on to the next record. Only an exception that escapes that block (the
 * error notification itself raising) reaches the outer handler, which sends
 * a critical notification, swallows any failure of it, and answers 500.
 */
module DocsHandler {
  import opened ThumbKey
  import opened Events

  /** The record fails and so does the error notification about it. */
  predicate Escapes(r: Record) {
    !Healthy(r) && r.alertFails
  }

  /** The one notification a record that does not escape leaves behind. */
  function NoticeFor(r: Record): Notice {
    if Healthy(r) then Processed(r.key.value) else RecordError(r.key)
  }

  /** The thumbnail key a record stores, if its `put_object` returns. */
  function StoredFor(r: Record): seq<string> {
    if StoreDone(r) then [DocsKey(r.key.value)] else []
  }

  /** The thumbnail keys a run of records stores, record by record. */
  function StoredAll(rs: seq<Record>): seq<string> {
    if |rs| == 0 then [] else StoredFor(rs[0]) + StoredAll(rs[1..])
  }

  /** The records of the event; a missing `Records` field reads as no records, as `event.get('Records', [])` does. */
  function Records(e: Event): seq<Record> {
    if e.records.Some? then e.records.value else []
  }

  /**
   * The body of the per-record try block and its except branch. A record
   * that does not escape publishes exactly one notification: success when it
   * is healthy, an error naming its key otherwise, even when its thumbnail
   * was already stored. The attempt counts as failed only when an exception
   * escapes the try block.
   */
  function Process(r: Record): (s: Attempt)
    ensures s.failed <==> Escapes(r)
    ensures Notices(s.effects) == (if s.failed then [] else [NoticeFor(r)])
    ensures Puts(s.effects) == StoredFor(r)
    ensures var a := Run(r, NameOnly).effects;
      |s.effects| == |a| + (if !Healthy(r) && !r.alertFails then 1 else 0) && s.effects[..|a|] == a
  {
    var a := Run(r, NameOnly);
    if !a.failed then Attempt(a.effects, false)
    else if r.alertFails then Attempt(a.effects, true)
    else
      var alert := Published(RecordError(r.key));
      var t := a.effects + [alert];
      OneEffect(alert);
      NoticesAppend(a.effects, [alert]);
      PutsAppend(a.effects, [alert]);
      assert Notices(t) == [RecordError(r.key)];
      assert Puts(t) == Puts(a.effects);
      Attempt(t, false)
  }

  /** The attempt each record makes, in record order. */
  function Attempts(rs: seq<Record>): (ss: seq<Attempt>)
    ensures |ss| == |rs|
    ensures forall i :: 0 <= i < |rs| ==> ss[i] == Process(rs[i])
  {
    seq(|rs|, i requires 0 <= i < |rs| => Process(rs[i]))
  }

  lemma AttemptsAppend(a: seq<Record>, b: seq<Record>)
    ensures Attempts(a + b) == Attempts(a) + Attempts(b)
  {
  }

  lemma AttemptsPrefix(rs: seq<Record>, n: nat)
    requires n <= |rs|
    ensures Attempts(rs[..n]) == Attempts(rs)[..n]
  {
  }

  /**
   * What the handler does once the loop is over, given how it ended and how
   * many records the event holds: the 200 answer, or the outer except branch
   * with its critical notification (published unless it raises, which is
   * swallowed) and the 500 answer.
   */
  function Finish(l: Attempt, count: nat, alarmFails: bool): (o: Outcome)
    ensures o.reply == (if l.failed then Response(500, None) else Response(200, Some(count)))
    ensures !l.failed ==> o.trace == l.effects
    ensures |o.trace| == |l.effects| + (if l.failed && !alarmFails then 1 else 0)
    ensures o.trace[..|l.effects|] == l.effects
    ensures Puts(o.trace) == Puts(l.effects)
    ensures Notices(o.trace) == Notices(l.effects) + (if l.failed && !alarmFails then [HandlerError] else [])
  {
    var critical := Published(HandlerError);
    OneEffect(critical);
    NoticesAppend(l.effects, [critical]);
    PutsAppend(l.effects, [critical]);
    assert l.effects + [] == l.effects;
    if !l.failed then Outcome(l.effects, Response(200, Some(count)))
    else Outcome(l.effects + (if alarmFails then [] else [critical]), Response(500, None))
  }

  /**
   * The whole handler. It never lets an exception out: it answers 200 with
   * the number of records in the event when no record escapes, however many
   * failed, and 500 otherwise.
   */
  function Handle(e: Event, alarmFails: bool): (o: Outcome)
    ensures o.reply.Response?
    ensures o.reply.statusCode == 200 <==> forall i :: 0 <= i < |Records(e)| ==> !Escapes(Records(e)[i])
    ensures o.reply.statusCode == 200 ==> o.reply.recordsProcessed == Some(|Records(e)|)
    ensures o.reply.statusCode != 200 ==> o.reply == Response(500, None)
    ensures e.records.None? ==> o == Outcome([], Response(200, Some(0)))
  {
    var rs := Records(e);
    Finish(Loop(Attempts(rs)), |rs|, alarmFails)
  }

  /** When no attempt escapes and each publishes one notification, the loop publishes them in order. */
  lemma {:induction false} LoopNotices(ss: seq<Attempt>)
    requires forall i :: 0 <= i < |ss| ==> !ss[i].failed && |Notices(ss[i].effects)| == 1
    ensures |Notices(Loop(ss).effects)| == |ss|
    ensures forall i :: 0 <= i < |ss| ==> Notices(Loop(ss).effects)[i] == Notices(ss[i].effects)[0]
  {
    if |ss| > 0 {
      LoopNotices(ss[1..]);
      NoticesAppend(ss[0].effects, Loop(ss[1..]).effects);
    }
  }

  /** When no record escapes, the loop stores what the records store, in order. */
  lemma {:induction false} LoopPuts(rs: seq<Record>)
    requires forall i :: 0 <= i < |rs| ==> !Escapes(rs[i])
    ensures Puts(Loop(Attempts(rs)).effects) == StoredAll(rs)
  {
    if |rs| > 0 {
      var ss := Attempts(rs);
      assert Attempts(rs[1..]) == ss[1..];
      assert !ss[0].failed;
      LoopPuts(rs[1..]);
      PutsAppend(ss[0].effects, Loop(ss[1..]).effects);
    }
  }

  /**
   * Failures stay with their record: when no error notification raises, the
   * handler answers 200 counting every record, publishes one notification per
   * record in order, and stores the thumbnail of every record whose
   * `put_object` returns.
   */
  lemma {:induction false} FailuresAreIsolated(e: Event, alarmFails: bool)
    requires forall i :: 0 <= i < |Records(e)| ==> !Escapes(Records(e)[i])
    ensures Handle(e, alarmFails).reply == Response(200, Some(|Records(e)|))
    ensures |Notices(Handle(e, alarmFails).trace)| == |Records(e)|
    ensures forall i :: 0 <= i < |Records(e)| ==>
      Notices(Handle(e, alarmFails).trace)[i] == NoticeFor(Records(e)[i])
    ensures Puts(Handle(e, alarmFails).trace) == StoredAll(Records(e))
  {
    var rs := Records(e);
    var ss := Attempts(rs);
    assert forall i :: 0 <= i < |ss| ==> Notices(ss[i].effects) == [NoticeFor(rs[i])];
    LoopNotices(ss);
    LoopPuts(rs);
  }

  /**
   * When every record is healthy, the handler answers 200 and its calls come
   * three per record, in record order: fetch the source, store the thumbnail
   * under the docs key, then publish success.
   */
  lemma {:induction false} AllHealthy(rs: seq<Record>, alarmFails: bool)
    requires forall i :: 0 <= i < |rs| ==> Healthy(rs[i])
    ensures Handle(Event(Some(rs)), alarmFails).reply == Response(200, Some(|rs|))
    ensures |Handle(Event(Some(rs)), alarmFails).trace| == 3 * |rs|
    ensures forall i :: 0 <= i < |rs| ==>
      var t, k := Handle(Event(Some(rs)), alarmFails).trace, KeyOf(rs[i]);
      t[3 * i] == Fetched(BucketOf(rs[i]), k) && t[3 * i + 1] == Stored(DocsKey(k))
      && t[3 * i + 2] == Published(Processed(k))
  {
    var ss := Attempts(rs);
    forall i | 0 <= i < |rs|
      ensures ss[i] == Run(rs[i], NameOnly)
    {
    }
    HealthyLoopTrace(ss, rs, NameOnly);
    assert Handle(Event(Some(rs)), alarmFails) == Outcome(Loop(ss).effects, Response(200, Some(|rs|)));
  }

  /**
   * The first record that escapes ends the loop: the trace is that of the
   * records before it, then its own calls, then the critical notification
   * unless that raises, and the answer is 500.
   */
  lemma {:induction false} EscapeEndsLoop(rs: seq<Record>, i: nat, alarmFails: bool)
    requires i < |rs| && Escapes(rs[i])
    requires forall j :: 0 <= j < i ==> !Escapes(rs[j])
    ensures Handle(Event(Some(rs)), alarmFails) == Outcome(
      Loop(Attempts(rs[..i])).effects + Run(rs[i], NameOnly).effects
      + (if alarmFails then [] else [Published(HandlerError)]),
      Response(500, None))
  {
    var ss := Attempts(rs);
    LoopStopsAt(ss, i, []);
    AttemptsPrefix(rs, i);
  }

  /** The loop over the records up to the first escape is unaffected by any records after it. */
  lemma {:induction false} LoopIgnoresLater(rs: seq<Record>, i: nat, rest: seq<Record>)
    requires i < |rs| && Escapes(rs[i])
    requires forall j :: 0 <= j < i ==> !Escapes(rs[j])
    ensures Loop(Attempts(rs[..i + 1] + rest)) == Loop(Attempts(rs[..i + 1]))
    ensures Loop(Attempts(rs[..i + 1])).failed
  {
    var ss := Attempts(rs);
    var short := rs[..i + 1];
    LoopStopsAt(ss, i, Attempts(rest));
    AttemptsPrefix(rs, i + 1);
    AttemptsAppend(short, rest);
    assert Attempts(short)[i].failed;
  }

  /** Records after the first one that escapes are never fetched, stored or notified about. */
  lemma {:induction false} EscapeIgnoresLater(rs: seq<Record>, i: nat, rest: seq<Record>, alarmFails: bool)
    requires i < |rs| && Escapes(rs[i])
    requires forall j :: 0 <= j < i ==> !Escapes(rs[j])
    ensures Handle(Event(Some(rs[..i + 1] + rest)), alarmFails) == Handle(Event(Some(rs[..i + 1])), alarmFails)
  {
    var short := rs[..i + 1];
    LoopIgnoresLater(rs, i, rest);
    var l := Loop(Attempts(short));
    assert Handle(Event(Some(short + rest)), alarmFails) == Finish(l, |short + rest|, alarmFails);
    assert Handle(Event(Some(short)), alarmFails) == Finish(l, |short|, alarmFails);
  }

  /**
   * A redelivered record stores its thumbnail under the same key whatever
   * happened to the earlier delivery, so the later put overwrites the earlier.
   */
  lemma RedeliveryOverwrites(r1: Record, r2: Record)
    requires r1.key == r2.key && StoreDone(r1) && StoreDone(r2)
    ensures Puts(Process(r1).effects) == Puts(Process(r2).effects) == [DocsKey(r1.key.value)]
  {
  }
}

=== FILE: events.dfy ===
/**
 * What both handlers share: the S3 event they receive, abstracted to what
 * decides their control flow, and the trace of external calls they make.
 *
 * A record is processed in the same order in both handlers: read the bucket
 * and key from the record, `get_object`, decode and re-encode the image,
 * derive the destination key, `put_object`, publish a success notification.
 * Each call either returns or raises; a record says which one raises first.
 * The trace holds only the calls that returned: a call that raised left no
 * effect behind.
 */
module Events {
  import opened ThumbKey

  datatype Option<+T> = None | Some(value: T)

  /** The calls of one record that can raise, in the order they are made. */
  datatype Stage =
    | Fetch    // get_object together with reading its body, taken as one call: either raising leaves no Fetched
    | Decode   // opening, flattening (docs version only), resizing and JPEG-encoding the image
    | Store    // put_object of the thumbnail
    | Publish  // the success notification

  /**
   * One record of the event. A missing `bucket` or `key` field makes the
   * record raise before any call; otherwise `fault` names the first call that
   * raises, if any. `alertFails` says whether an error notification about this
   * record would itself raise (only the docs handler sends one).
   */
  datatype Record = Record(bucket: Option<string>, key: Option<string>, fault: Option<Stage>, alertFails: bool)

  /** The S3 event; `records` is `None` when it has no `Records` field. */
  datatype Event = Event(records: Option<seq<Record>>)

  /** The notifications the handlers publish. */
  datatype Notice =
    | Processed(key: string)             // a thumbnail was made for this source key
    | RecordError(about: Option<string>) // this record failed; its key, when the record had one
    | HandlerError                       // the handler as a whole failed

  /** A call that returned normally. */
  datatype Effect =
    | Fetched(bucket: string, key: string)
    | Stored(dest: string)
    | Published(notice: Notice)

  /** What the handler returns: a response with a status code, or an exception that escapes it. */
  datatype Reply = Response(statusCode: int, recordsProcessed: Option<nat>) | Raised

  /** A whole invocation: the calls made, then the reply. */
  datatype Outcome = Outcome(trace: seq<Effect>, reply: Reply)

  /** The calls one record gets through before it stops, and whether it stopped by raising. */
  datatype Attempt = Attempt(effects: seq<Effect>, failed: bool)

  /** A record that raises nowhere. */
  predicate Healthy(r: Record) {
    r.bucket.Some? && r.key.Some? && r.fault.None?
  }

  /** The record's bucket name; empty when the field is missing, as such a record never reaches a call. */
  function BucketOf(r: Record): string {
    if r.bucket.Some? then r.bucket.value else ""
  }

  /** The record's object key; empty when the field is missing, as such a record never reaches a call. */
  function KeyOf(r: Record): string {
    if r.key.Some? then r.key.value else ""
  }

  /** A record whose `put_object` returns: it is healthy, or only its success notification raises. */
  predicate StoreDone(r: Record) {
    r.bucket.Some? && r.key.Some? && (r.fault.None? || r.fault == Some(Publish))
  }

  /** Dropping the head of a concatenation drops the head of its left part. */
  lemma TailOfConcat<T>(a: seq<T>, b: seq<T>)
    requires |a| > 0
    ensures (a + b)[0] == a[0] && (a + b)[1..] == a[1..] + b
  {
  }

  /** The destination keys stored, in order. */
  function Puts(t: seq<Effect>): seq<string> {
    if |t| == 0 then []
    else (if t[0].Stored? then [t[0].dest] else []) + Puts(t[1..])
  }

  /** The notifications published, in order. */
  function Notices(t: seq<Effect>): seq<Notice> {
    if |t| == 0 then []
    else (if t[0].Published? then [t[0].notice] else []) + Notices(t[1..])
  }

  lemma {:induction false} PutsAppend(a: seq<Effect>, b: seq<Effect>)
    ensures Puts(a + b) == Puts(a) + Puts(b)
  {
    if |a| > 0 {
      TailOfConcat(a, b);
      PutsAppend(a[1..], b);
    } else {
      assert a + b == b;
    }
  }

  lemma {:induction false} NoticesAppend(a: seq<Effect>, b: seq<Effect>)
    ensures Notices(a + b) == Notices(a) + Notices(b)
  {
    if |a| > 0 {
      TailOfConcat(a, b);
      NoticesAppend(a[1..], b);
    } else {
      assert a + b == b;
    }
  }

  /** What one call contributes to the projections. */
  lemma OneEffect(e: Effect)
    ensures Puts([e]) == (if e.Stored? then [e.dest] else [])
    ensures Notices([e]) == (if e.Published? then [e.notice] else [])
  {
    assert [e][1..] == [];
  }

  /**
   * One record, up to its first failure, with the thumbnail named by `rule`.
   * It fails exactly when it is not healthy; it stores a thumbnail exactly when
   * `put_object` is reached and returns; it publishes only on success, and
   * then as its last call, after the thumbnail is stored.
   */
  function Run(r: Record, rule: Rule): (a: Attempt)
    ensures a.failed <==> !Healthy(r)
    ensures Puts(a.effects) == (if StoreDone(r) then [Destination(rule, r.key.value)] else [])
    ensures Notices(a.effects) == (if a.failed then [] else [Processed(r.key.value)])
    ensures !a.failed ==>
      |a.effects| >= 2 && a.effects[|a.effects| - 1] == Published(Processed(r.key.value))
      && a.effects[|a.effects| - 2] == Stored(Destination(rule, r.key.value))
  {
    if r.bucket.None? || r.key.None? then Attempt([], true)
    else
      var b, k := r.bucket.value, r.key.value;
      var get, put, tell := Fetched(b, k), Stored(Destination(rule, k)), Published(Processed(k));
      OneEffect(get);
      OneEffect(put);
      OneEffect(tell);
      PutsAppend([get], [put]);
      NoticesAppend([get], [put]);
      PutsAppend([get, put], [tell]);
      NoticesAppend([get, put], [tell]);
      match r.fault
      case Some(Fetch) => Attempt([], true)
      case Some(Decode) => Attempt([get], true)
      case Some(Store) => Attempt([get], true)
      case Some(Publish) => Attempt([get, put], true)
      case None => Attempt([get, put, tell], false)
  }

  /**
   * A `for` loop over the records, given the attempt each record makes: the
   * attempts run in order and the first one that fails ends the loop. In the
   * lamcode handler an attempt fails when its record raises inside the one
   * try block; in the docs handler, when an exception escapes the record's own
   * try block.
   */
  function Loop(tries: seq<Attempt>): (a: Attempt)
    ensures a.failed <==> exists i :: 0 <= i < |tries| && tries[i].failed
  {
    if |tries| == 0 then Attempt([], false)
    else if tries[0].failed then tries[0]
    else
      var rest := Loop(tries[1..]);
      assert forall i :: 0 <= i < |tries[1..]| ==> tries[1..][i] == tries[i + 1];
      Attempt(tries[0].effects + rest.effects, rest.failed)
  }

  /** After attempts that do not fail, the loop goes on with the next ones as if started afresh. */
  lemma {:induction false} LoopContinues(a: seq<Attempt>, b: seq<Attempt>)
    requires !Loop(a).failed
    ensures Loop(a + b) == Attempt(Loop(a).effects + Loop(b).effects, Loop(b).failed)
  {
    if |a| == 0 {
      assert a + b == b;
    } else {
      TailOfConcat(a, b);
      LoopContinues(a[1..], b);
      var x, y := Loop(a[1..]).effects, Loop(b).effects;
      assert a[0].effects + (x + y) == (a[0].effects + x) + y;
    }
  }

  /** The loop stops at the first attempt that fails and never looks past it. */
  lemma {:induction false} LoopStopsAt(tries: seq<Attempt>, i: nat, tail: seq<Attempt>)
    requires i < |tries| && tries[i].failed
    requires forall j :: 0 <= j < i ==> !tries[j].failed
    ensures Loop(tries) == Attempt(Loop(tries[..i]).effects + tries[i].effects, true)
    ensures Loop(tries[..i + 1] + tail) == Loop(tries[..i + 1])
  {
    var pre := tries[..i];
    assert tries == pre + tries[i..];
    LoopContinues(pre, tries[i..]);
    assert tries[..i + 1] + tail == pre + ([tries[i]] + tail);
    LoopContinues(pre, [tries[i]] + tail);
    assert tries[..i + 1] == pre + [tries[i]];
    LoopContinues(pre, [tries[i]]);
  }

  /** Attempts that each make three calls and none fails leave their calls side by side. */
  lemma {:induction false} LoopThreeEach(tries: seq<Attempt>)
    requires forall i :: 0 <= i < |tries| ==> !tries[i].failed && |tries[i].effects| == 3
    ensures |Loop(tries).effects| == 3 * |tries|
    ensures forall i, m :: 0 <= i < |tries| && 0 <= m < 3 ==> Loop(tries).effects[3 * i + m] == tries[i].effects[m]
  {
    if |tries| > 0 {
      var t, rest := Loop(tries).effects, Loop(tries[1..]).effects;
      LoopThreeEach(tries[1..]);
      assert t == tries[0].effects + rest;
      forall i, m | 0 <= i < |tries| && 0 <= m < 3
        ensures t[3 * i + m] == tries[i].effects[m]
      {
        if i > 0 {
          assert 3 * i + m == 3 + (3 * (i - 1) + m);
          assert tries[1..][i - 1] == tries[i];
        }
      }
    }
  }

  /** The three calls of a healthy record, in order. */
  lemma HealthyRun(r: Record, rule: Rule)
    requires Healthy(r)
    ensures Run(r, rule).effects ==
      [Fetched(r.bucket.value, r.key.value), Stored(Destination(rule, r.key.value)), Published(Processed(r.key.value))]
  {
  }

  /**
   * Healthy records, each making its run under `rule`: the loop does not fail
   * and its calls come three per record, in record order.
   */
  lemma {:induction false} HealthyLoopTrace(tries: seq<Attempt>, rs: seq<Record>, rule: Rule)
    requires |tries| == |rs|
    requires forall i :: 0 <= i < |rs| ==> Healthy(rs[i]) && tries[i] == Run(rs[i], rule)
    ensures !Loop(tries).failed
    ensures |Loop(tries).effects| == 3 * |rs|
    ensures forall i :: 0 <= i < |rs| ==>
      var t, k := Loop(tries).effects, KeyOf(rs[i]);
      t[3 * i] == Fetched(BucketOf(rs[i]), k) && t[3 * i + 1] == Stored(Destination(rule, k))
      && t[3 * i + 2] == Published(Processed(k))
  {
    forall i | 0 <= i < |rs|
      ensures !tries[i].failed && tries[i].effects == [Fetched(BucketOf(rs[i]), KeyOf(rs[i])),
        Stored(Destination(rule, KeyOf(rs[i]))), Published(Processed(KeyOf(rs[i])))]
    {
      HealthyRun(rs[i], rule);
    }
    LoopThreeEach(tries);
    var t := Loop(tries).effects;
    forall i | 0 <= i < |rs|
      ensures var k := KeyOf(rs[i]);
        t[3 * i] == Fetched(BucketOf(rs[i]), k) && t[3 * i + 1] == Stored(Destination(rule, k))
        && t[3 * i + 2] == Published(Processed(k))
    {
      assert t[3 * i + 0] == tries[i].effects[0];
      assert t[3 * i + 1] == tries[i].effects[1];
      assert t[3 * i + 2] == tries[i].effects[2];
    }
  }
}

=== FILE: imagemode.dfy ===
/**
 * The image-mode rule applied before a thumbnail is encoded as JPEG in
 * docs/lambda-function.py: an image in a mode with transparency or a palette
 * is pasted onto a new white RGB background, and every other mode is kept.
 * Only mode labels are modelled, not pixels.
 */
module ImageMode {

  /** The modes the handler pastes onto a white background. */
  const Flattened: set<string> := {"RGBA", "LA", "P"}

  /** The mode of the background the image is pasted onto. */
  const Background: string := "RGB"

  /** PIL modes whose last band is an alpha channel. */
  predicate HasAlpha(mode: string) {
    mode in {"RGBA", "LA", "PA", "RGBa", "La"}
  }

  /** The paste onto the background: the mode of the image pasted, and whether its alpha band is the mask. */
  datatype Paste = Paste(pasted: string, masked: bool)

  /** The image pasted: a palette image is first converted to RGBA, others are pasted as they are. */
  function Pasted(mode: string): (m: string)
    requires mode in Flattened
    ensures HasAlpha(m)
  {
    if mode == "P" then "RGBA" else mode
  }

  /**
   * The paste as the handler writes it: the alpha band is used as the mask
   * only when the pasted image is RGBA, so an LA image is pasted without one.
   */
  function PasteAsWritten(mode: string): (p: Paste)
    requires mode in Flattened
    ensures p.pasted == Pasted(mode)
    ensures p.masked <==> mode != "LA"
  {
    Paste(Pasted(mode), Pasted(mode) == "RGBA")
  }

  /** The one flattened mode whose transparency the paste as written ignores. */
  lemma AlphaIgnoredForLA()
    ensures HasAlpha(PasteAsWritten("LA").pasted) && !PasteAsWritten("LA").masked
  {
  }

  /** The paste as evidently intended: every flattened image is composited through its own alpha band. */
  function PasteIntended(mode: string): (p: Paste)
    requires mode in Flattened
    ensures p.pasted == Pasted(mode)
    ensures p.masked
  {
    var m := Pasted(mode);
    Paste(m, HasAlpha(m))
  }

  /** Only LA is pasted differently than written, and there it is the mask that differs. */
  lemma PasteIntendedDiffersOnlyForLA(mode: string)
    requires mode in Flattened
    ensures PasteIntended(mode) != PasteAsWritten(mode) <==> mode == "LA"
    ensures PasteIntended(mode).pasted == PasteAsWritten(mode).pasted
  {
  }

  /** What happens to an image of a given mode before it is resized. */
  datatype Preparation = Keep | Flatten(paste: Paste)

  /**
   * The handler's preparation: an image in mode RGBA, LA or P is pasted onto
   * a white RGB background with the paste as written, so its alpha band is
   * the mask unless it is LA; an image in any other mode is kept as it is.
   */
  function Prepare(mode: string): (p: Preparation)
    ensures p.Flatten? <==> mode in Flattened
    ensures p.Flatten? ==> p.paste.pasted == Pasted(mode) && (p.paste.masked <==> mode != "LA")
  {
    if mode in Flattened then Flatten(PasteAsWritten(mode)) else Keep
  }

  /** The same preparation with the intended paste: every flattened image is masked by its alpha band. */
  function PrepareIntended(mode: string): (p: Preparation)
    ensures p.Flatten? <==> mode in Flattened
    ensures p.Flatten? ==> p.paste.pasted == Pasted(mode) && p.paste.masked
  {
    if mode in Flattened then Flatten(PasteIntended(mode)) else Keep
  }

  /** The correction changes the preparation of LA images and of nothing else. */
  lemma PrepareDiffersOnlyForLA(mode: string)
    ensures Prepare(mode) != PrepareIntended(mode) <==> mode == "LA"
  {
  }

  /** The mode of the image that is resized and encoded. */
  function Normalise(mode: string): (r: string)
    ensures r !in Flattened
    ensures r == mode <==> mode !in Flattened
    ensures r != mode ==> r == Background
  {
    match Prepare(mode)
    case Keep => mode
    case Flatten(_) => Background
  }

  /** Normalising twice changes nothing more than normalising once. */
  lemma NormaliseIdempotent(mode: string)
    ensures Normalise(Normalise(mode)) == Normalise(mode)
  {
  }
}

=== FILE: lamcodehandler.dfy ===
/**
 * The handler of lamcode.py. All records run inside one try block: the first
 * record that raises ends the loop, and the except branch publishes one error
 * notification and answers 500. Nothing stored or published for the records
 * before it is undone. An event without a `Records` field raises at once and
 * takes the same branch. If the error notification itself raises, the
 * exception leaves the handler.
 */
module LamcodeHandler {
  import opened ThumbKey
  import opened Events

  /** The attempt each record makes, in record order. */
  function Attempts(rs: seq<Record>): (tries: seq<Attempt>)
    ensures |tries| == |rs|
    ensures forall i {:trigger tries[i]} :: 0 <= i < |rs| ==> tries[i] == Run(rs[i], KeepDirectory)
  {
    seq(|rs|, i requires 0 <= i < |rs| => Run(rs[i], KeepDirectory))
  }

  lemma AttemptsAppend(a: seq<Record>, b: seq<Record>)
    ensures Attempts(a + b) == Attempts(a) + Attempts(b)
  {
  }

  lemma AttemptsPrefix(rs: seq<Record>, n: nat)
    requires n <= |rs|
    ensures Attempts(rs[..n]) == Attempts(rs)[..n]
  {
  }

  /**
   * What follows the try block: 200 when nothing raised; otherwise the except
   * branch, which publishes one error notification and answers 500, or lets
   * the exception out when that notification raises.
   */
  function Finish(l: Attempt, alarmFails: bool): (o: Outcome)
    ensures !l.failed ==> o == Outcome(l.effects, Response(200, None))
    ensures l.failed ==> o.reply == (if alarmFails then Raised else Response(500, None))
    ensures |o.trace| == |l.effects| + (if l.failed && !alarmFails then 1 else 0)
    ensures o.trace[..|l.effects|] == l.effects
    ensures Puts(o.trace) == Puts(l.effects)
    ensures Notices(o.trace) == Notices(l.effects) + (if l.failed && !alarmFails then [HandlerError] else [])
  {
    var alarm := Published(HandlerError);
    OneEffect(alarm);
    NoticesAppend(l.effects, [alarm]);
    PutsAppend(l.effects, [alarm]);
    assert l.effects + [] == l.effects;
    if !l.failed then Outcome(l.effects, Response(200, None))
    else if alarmFails then Outcome(l.effects, Raised)
    else Outcome(l.effects + [alarm], Response(500, None))
  }

  /**
   * The whole handler: 200 exactly when the event has records and every one
   * of them is healthy; otherwise 500 after the error notification, or an
   * exception when that notification raises.
   */
  function Handle(e: Event, alarmFails: bool): (o: Outcome)
    ensures o.reply == Response(200, None) <==>
      e.records.Some? && forall i :: 0 <= i < |e.records.value| ==> Healthy(e.records.value[i])
    ensures o.reply != Response(200, None) ==> o.reply == (if alarmFails then Raised else Response(500, None))
    ensures e.records.None? ==> o.trace == (if alarmFails then [] else [Published(HandlerError)])
  {
    match e.records
    case None => Finish(Attempt([], true), alarmFails)
    case Some(rs) =>
      var tries := Attempts(rs);
      assert forall i :: 0 <= i < |rs| ==> (tries[i].failed <==> !Healthy(rs[i]));
      Finish(Loop(tries), alarmFails)
  }

  /**
   * When every record is healthy the calls come three per record, in record
   * order: fetch the source, store its thumbnail, then publish success.
   */
  lemma {:induction false} LoopHealthyTrace(rs: seq<Record>)
    requires forall i :: 0 <= i < |rs| ==> Healthy(rs[i])
    ensures !Loop(Attempts(rs)).failed
    ensures |Loop(Attempts(rs)).effects| == 3 * |rs|
    ensures forall i :: 0 <= i < |rs| ==>
      var t, k := Loop(Attempts(rs)).effects, KeyOf(rs[i]);
      t[3 * i] == Fetched(BucketOf(rs[i]), k) && t[3 * i + 1] == Stored(LamcodeKey(k))
      && t[3 * i + 2] == Published(Processed(k))
  {
    var tries := Attempts(rs);
    HealthyLoopTrace(tries, rs, KeepDirectory);
  }

  /** When every record is healthy, the thumbnails are stored one per record, in record order. */
  lemma {:induction false} LoopHealthyPuts(rs: seq<Record>)
    requires forall i :: 0 <= i < |rs| ==> Healthy(rs[i])
    ensures |Puts(Loop(Attempts(rs)).effects)| == |rs|
    ensures forall i :: 0 <= i < |rs| ==> Puts(Loop(Attempts(rs)).effects)[i] == LamcodeKey(KeyOf(rs[i]))
  {
    if |rs| > 0 {
      var tries := Attempts(rs);
      assert Attempts(rs[1..]) == tries[1..];
      LoopHealthyPuts(rs[1..]);
      PutsAppend(tries[0].effects, Loop(tries[1..]).effects);
    }
  }

  /** When every record is healthy, one success notification is published per record, in record order. */
  lemma {:induction false} LoopHealthyNotices(rs: seq<Record>)
    requires forall i :: 0 <= i < |rs| ==> Healthy(rs[i])
    ensures |Notices(Loop(Attempts(rs)).effects)| == |rs|
    ensures forall i :: 0 <= i < |rs| ==> Notices(Loop(Attempts(rs)).effects)[i] == Processed(KeyOf(rs[i]))
  {
    if |rs| > 0 {
      var tries := Attempts(rs);
      assert Attempts(rs[1..]) == tries[1..];
      LoopHealthyNotices(rs[1..]);
      NoticesAppend(tries[0].effects, Loop(tries[1..]).effects);
    }
  }

  /** `LoopHealthyPuts` for the healthy records before `i`. */
  lemma HealthyPrefixPuts(rs: seq<Record>, i: nat)
    requires i <= |rs| && forall j :: 0 <= j < i ==> Healthy(rs[j])
    ensures var keys := Puts(Loop(Attempts(rs[..i])).effects);
      |keys| == i && forall j :: 0 <= j < i ==> keys[j] == LamcodeKey(KeyOf(rs[j]))
  {
    var pre := rs[..i];
    assert forall j :: 0 <= j < |pre| ==> pre[j] == rs[j];
    LoopHealthyPuts(pre);
  }

  /** `LoopHealthyNotices` for the healthy records before `i`. */
  lemma HealthyPrefixNotices(rs: seq<Record>, i: nat)
    requires i <= |rs| && forall j :: 0 <= j < i ==> Healthy(rs[j])
    ensures var notes := Notices(Loop(Attempts(rs[..i])).effects);
      |notes| == i && forall j :: 0 <= j < i ==> notes[j] == Processed(KeyOf(rs[j]))
  {
    var pre := rs[..i];
    assert forall j :: 0 <= j < |pre| ==> pre[j] == rs[j];
    LoopHealthyNotices(pre);
  }

  /**
   * An event whose records are all healthy is answered 200, after one
   * fetch, one put and one success notification per record, in record order.
   */
  lemma {:induction false} AllHealthy(rs: seq<Record>, alarmFails: bool)
    requires forall i :: 0 <= i < |rs| ==> Healthy(rs[i])
    ensures Handle(Event(Some(rs)), alarmFails).reply == Response(200, None)
    ensures |Handle(Event(Some(rs)), alarmFails).trace| == 3 * |rs|
    ensures forall i :: 0 <= i < |rs| ==>
      var t, k := Handle(Event(Some(rs)), alarmFails).trace, KeyOf(rs[i]);
      t[3 * i] == Fetched(BucketOf(rs[i]), k) && t[3 * i + 1] == Stored(LamcodeKey(k))
      && t[3 * i + 2] == Published(Processed(k))
    ensures |Puts(Handle(Event(Some(rs)), alarmFails).trace)| == |rs|
    ensures |Notices(Handle(Event(Some(rs)), alarmFails).trace)| == |rs|
  {
    LoopHealthyTrace(rs);
    LoopHealthyPuts(rs);
    LoopHealthyNotices(rs);
  }

  /**
   * The first record that raises ends the loop: the trace is that of the
   * healthy records before it, then the calls it got through, then the one
   * error notification unless that raises.
   */
  lemma {:induction false} AbortAt(rs: seq<Record>, i: nat, alarmFails: bool)
    requires i < |rs| && !Healthy(rs[i])
    requires forall j :: 0 <= j < i ==> Healthy(rs[j])
    ensures Handle(Event(Some(rs)), alarmFails) ==
      Finish(Attempt(Loop(Attempts(rs[..i])).effects + Run(rs[i], KeepDirectory).effects, true), alarmFails)
  {
    LoopStopsAt(Attempts(rs), i, []);
    AttemptsPrefix(rs, i);
  }

  /** Records after the first one that raises are never fetched, stored or notified about. */
  lemma {:induction false} AbortIgnoresLater(rs: seq<Record>, i: nat, rest: seq<Record>, alarmFails: bool)
    requires i < |rs| && !Healthy(rs[i])
    requires forall j :: 0 <= j < i ==> Healthy(rs[j])
    ensures Handle(Event(Some(rs[..i + 1] + rest)), alarmFails) == Handle(Event(Some(rs[..i + 1])), alarmFails)
  {
    var short := rs[..i + 1];
    LoopStopsAt(Attempts(rs), i, Attempts(rest));
    AttemptsPrefix(rs, i + 1);
    AttemptsAppend(short, rest);
  }

  /** What the except branch adds to the thumbnails and notifications of the calls made before it. */
  lemma AbortProjections(l: seq<Effect>, a: seq<Effect>, alarmFails: bool)
    ensures var t := Finish(Attempt(l + a, true), alarmFails).trace;
      && Puts(t) == Puts(l) + Puts(a)
      && Notices(t) == Notices(l) + Notices(a) + (if alarmFails then [] else [HandlerError])
  {
    PutsAppend(l, a);
    NoticesAppend(l, a);
  }

  /**
   * Stored thumbnails are not rolled back: when the record at `i` is the first
   * to raise, the thumbnails of the records before it stay, in order, and so
   * does its own if its put returned.
   */
  lemma {:induction false} StoredThumbnailsKept(rs: seq<Record>, i: nat, alarmFails: bool)
    requires i < |rs| && !Healthy(rs[i])
    requires forall j :: 0 <= j < i ==> Healthy(rs[j])
    ensures var t := Handle(Event(Some(rs)), alarmFails).trace;
      && |Puts(t)| == i + (if StoreDone(rs[i]) then 1 else 0)
      && (forall j :: 0 <= j < i ==> Puts(t)[j] == LamcodeKey(KeyOf(rs[j])))
      && (StoreDone(rs[i]) ==> Puts(t)[i] == LamcodeKey(KeyOf(rs[i])))
  {
    var pre := rs[..i];
    var l, a := Loop(Attempts(pre)).effects, Run(rs[i], KeepDirectory).effects;
    var t := Handle(Event(Some(rs)), alarmFails).trace;
    assert Puts(t) == Puts(l) + Puts(a) by {
      AbortAt(rs, i, alarmFails);
      AbortProjections(l, a, alarmFails);
    }
    HealthyPrefixPuts(rs, i);
    assert Puts(a) == if StoreDone(rs[i]) then [LamcodeKey(KeyOf(rs[i]))] else [];
  }

  /**
   * A failure yields exactly one error notification: when the record at `i`
   * is the first to raise, the success notifications of the records before
   * it stay, in order, followed by the single error notification unless that
   * raises.
   */
  lemma {:induction false} OneErrorNotice(rs: seq<Record>, i: nat, alarmFails: bool)
    requires i < |rs| && !Healthy(rs[i])
    requires forall j :: 0 <= j < i ==> Healthy(rs[j])
    ensures var t := Handle(Event(Some(rs)), alarmFails).trace;
      && |Notices(t)| == i + (if alarmFails then 0 else 1)
      && (forall j :: 0 <= j < i ==> Notices(t)[j] == Processed(KeyOf(rs[j])))
      && (!alarmFails ==> Notices(t)[i] == HandlerError)
  {
    var pre := rs[..i];
    var l, a := Loop(Attempts(pre)).effects, Run(rs[i], KeepDirectory).effects;
    var t := Handle(Event(Some(rs)), alarmFails).trace;
    assert Notices(t) == Notices(l) + Notices(a) + (if alarmFails then [] else [HandlerError]) by {
      AbortAt(rs, i, alarmFails);
      AbortProjections(l, a, alarmFails);
    }
    HealthyPrefixNotices(rs, i);
    assert Notices(a) == [];
  }

  /**
   * A redelivered record stores its thumbnail under the same key whatever
   * happened to the earlier delivery, so the later put overwrites the earlier.
   */
  lemma RedeliveryOverwrites(r1: Record, r2: Record)
    requires r1.key == r2.key && StoreDone(r1) && StoreDone(r2)
    ensures Puts(Run(r1, KeepDirectory).effects) == Puts(Run(r2, KeepDirectory).effects) == [LamcodeKey(r1.key.value)]
  {
  }
}

=== FILE: posixpath.dfy ===
/**
 * The two path functions of Python's `posixpath` that the handlers apply to an
 * S3 object key: `splitext` and `basename`. Keys are plain strings; `/` is the
 * only separator and `.` the only extension separator.
 */
module PosixPath {

  const Sep: char := '/'
  const Dot: char := '.'

  /** Index of the last occurrence of `c` in `s`, or -1 when there is none (`str.rfind`). */
  function RFind(s: string, c: char): (r: int)
    ensures -1 <= r < |s|
    ensures r >= 0 ==> s[r] == c
    ensures forall j :: r < j < |s| ==> s[j] != c
  {
    if |s| == 0 then -1
    else if s[|s| - 1] == c then |s| - 1
    else RFind(s[..|s| - 1], c)
  }

  /** The three facts above pin `RFind` down: any index with them is the result. */
  lemma RFindIs(s: string, c: char, i: int)
    requires -1 <= i < |s|
    requires i >= 0 ==> s[i] == c
    requires forall j :: i < j < |s| ==> s[j] != c
    ensures RFind(s, c) == i
  {
  }

  /** `e` is empty or a dot followed by neither a separator nor another dot. */
  predicate IsExtension(e: string) {
    e == [] || (e[0] == Dot && Sep !in e && Dot !in e[1..])
  }

  /** The suffix from the last dot, when that dot follows the last separator, is an extension. */
  lemma ExtensionShape(p: string, sep: int, dot: int)
    requires sep == RFind(p, Sep) && dot == RFind(p, Dot) && dot > sep
    ensures p[..dot] + p[dot..] == p && IsExtension(p[dot..])
  {
  }

  /** Adjacent slices join up. */
  lemma SliceJoin(s: string, i: nat, j: nat, k: nat)
    requires i <= j <= k <= |s|
    ensures s[i..j] + s[j..k] == s[i..k]
  {
  }

  /** A slice of a suffix is a slice of the whole. */
  lemma SliceOfSuffix(s: string, i: nat, n: nat)
    requires i + n <= |s|
    ensures s[i..][..n] == s[i..i + n]
  {
  }

  /** `s` holds some character other than a dot. */
  predicate NotAllDots(s: string) {
    exists i :: 0 <= i < |s| && s[i] != Dot
  }

  /**
   * A file name has an extension when a dot follows some non-dot character:
   * the dots a name starts with (`.hidden`, `..x`) never begin one.
   */
  predicate HasExtension(name: string) {
    exists i, j :: 0 <= i < j < |name| && name[i] != Dot && name[j] == Dot
  }

  /** `os.path.basename`: everything after the last separator. */
  function Basename(p: string): (r: string)
    ensures Sep !in r
    ensures |r| <= |p| && p[|p| - |r|..] == r
    ensures |r| < |p| ==> p[|p| - |r| - 1] == Sep
  {
    p[RFind(p, Sep) + 1..]
  }

  /** The directory part `basename` drops, separator included (empty for a flat key). */
  function DirPrefix(p: string): (r: string)
    ensures r + Basename(p) == p
    ensures r == [] || r[|r| - 1] == Sep
  {
    p[..RFind(p, Sep) + 1]
  }

  /**
   * `os.path.splitext`: the extension is the suffix from the last dot, provided
   * that dot lies in the final path component and some non-dot character of
   * that component comes before it; otherwise the extension is empty.
   */
  function SplitExt(p: string): (r: (string, string))
    ensures r.0 + r.1 == p
    ensures IsExtension(r.1)
  {
    var sep := RFind(p, Sep);
    var dot := RFind(p, Dot);
    if dot > sep && NotAllDots(p[sep + 1..dot]) then
      ExtensionShape(p, sep, dot);
      (p[..dot], p[dot..])
    else
      (p, [])
  }

  /** The branch `SplitExt` takes, stated once so that the lemmas need not unfold it. */
  lemma SplitExtBranch(p: string)
    ensures var sep, dot := RFind(p, Sep), RFind(p, Dot);
      if dot > sep && NotAllDots(p[sep + 1..dot]) then SplitExt(p) == (p[..dot], p[dot..])
      else SplitExt(p) == (p, [])
  {
  }

  /** `os.path.splitext(p)[0]`. */
  function Root(p: string): string {
    SplitExt(p).0
  }

  /** `os.path.splitext(p)[1]`. */
  function Ext(p: string): string {
    SplitExt(p).1
  }

  /**
   * The extension is non-empty exactly when the final component has one; so
   * a leading-dot name like `.hidden` keeps its whole name, and only the last
   * extension of `a.tar.gz` is removed.
   */
  lemma {:induction false} ExtensionFound(p: string)
    ensures Ext(p) != [] <==> HasExtension(Basename(p))
  {
    var sep := RFind(p, Sep);
    var dot := RFind(p, Dot);
    var b := Basename(p);
    assert b == p[sep + 1..];
    SplitExtBranch(p);
    if dot > sep && NotAllDots(p[sep + 1..dot]) {
      var i :| 0 <= i < |p[sep + 1..dot]| && p[sep + 1..dot][i] != Dot;
      assert b[i] != Dot && b[dot - sep - 1] == Dot;
      assert HasExtension(b);
    }
    if HasExtension(b) {
      var i, j :| 0 <= i < j < |b| && b[i] != Dot && b[j] == Dot;
      assert p[sep + 1 + j] == Dot;
      assert p[sep + 1..dot][i] != Dot;
    }
  }

  /** Cutting off a prefix of `p` shifts the last occurrence of `c`, or loses it. */
  lemma RFindInSuffix(p: string, c: char, k: nat)
    requires k <= |p|
    ensures RFind(p[k..], c) == if RFind(p, c) >= k then RFind(p, c) - k else -1
  {
    var i := RFind(p, c);
    var q := p[k..];
    assert forall j :: 0 <= j < |q| ==> q[j] == p[j + k];
    RFindIs(q, c, if i >= k then i - k else -1);
  }

  /** Cutting off a suffix of `p` after the last occurrence of `c` keeps that occurrence. */
  lemma RFindInPrefix(p: string, c: char, n: nat)
    requires RFind(p, c) < n <= |p|
    ensures RFind(p[..n], c) == RFind(p, c)
  {
    var q := p[..n];
    assert forall j :: 0 <= j < |q| ==> q[j] == p[j];
    RFindIs(q, c, RFind(p, c));
  }

  /** Stripping the extension and taking the basename can be done in either order. */
  lemma {:induction false} BasenameRootCommute(p: string)
    ensures Basename(Root(p)) == Root(Basename(p))
  {
    var sep := RFind(p, Sep);
    var dot := RFind(p, Dot);
    SplitExtBranch(p);
    if dot > sep && NotAllDots(p[sep + 1..dot]) {
      CommuteWithExtension(p, sep, dot);
    } else {
      CommuteWithoutExtension(p, sep, dot);
    }
  }

  lemma {:induction false} CommuteWithExtension(p: string, sep: int, dot: int)
    requires sep == RFind(p, Sep) && dot == RFind(p, Dot)
    requires dot > sep && NotAllDots(p[sep + 1..dot])
    ensures Basename(p[..dot]) == Root(Basename(p)) == p[sep + 1..dot]
  {
    RFindInPrefix(p, Sep, dot);
    assert Basename(p[..dot]) == p[..dot][sep + 1..];
    assert p[..dot][sep + 1..] == p[sep + 1..dot];
    BasenameExtension(p, sep, dot);
  }

  lemma {:induction false} BasenameExtension(p: string, sep: int, dot: int)
    requires sep == RFind(p, Sep) && dot == RFind(p, Dot)
    requires dot > sep && NotAllDots(p[sep + 1..dot])
    ensures Root(Basename(p)) == p[sep + 1..dot]
  {
    var b := p[sep + 1..];
    var d := dot - sep - 1;
    assert Basename(p) == b;
    RFindInSuffix(p, Sep, sep + 1);
    RFindInSuffix(p, Dot, sep + 1);
    assert RFind(b, Sep) == -1 && RFind(b, Dot) == d;
    SliceOfSuffix(p, sep + 1, d);
    assert b[-1 + 1..d] == b[..d] == p[sep + 1..dot];
    assert NotAllDots(b[RFind(b, Sep) + 1..RFind(b, Dot)]);
    SplitExtBranch(b);
    assert SplitExt(b) == (b[..d], b[d..]);
  }

  lemma {:induction false} CommuteWithoutExtension(p: string, sep: int, dot: int)
    requires sep == RFind(p, Sep) && dot == RFind(p, Dot)
    requires !(dot > sep && NotAllDots(p[sep + 1..dot]))
    ensures Root(Basename(p)) == Basename(p)
  {
    var b := p[sep + 1..];
    RFindInSuffix(p, Sep, sep + 1);
    RFindInSuffix(p, Dot, sep + 1);
    var sb, db := RFind(b, Sep), RFind(b, Dot);
    assert sb == -1;
    if dot > sep {
      assert b[sb + 1..db] == p[sep + 1..dot];
    }
    assert !(db > sb && NotAllDots(b[sb + 1..db]));
    SplitExtBranch(b);
    assert SplitExt(b) == (b, []);
    assert Basename(p) == b;
  }

  /** `splitext` only ever shortens the final component: the directory part of a key survives it. */
  lemma {:induction false} RootKeepsDirectory(p: string)
    ensures Root(p) == DirPrefix(p) + Root(Basename(p))
  {
    var sep := RFind(p, Sep);
    var dot := RFind(p, Dot);
    if dot > sep && NotAllDots(p[sep + 1..dot]) {
      KeepDirectoryWithExtension(p, sep, dot);
    } else {
      KeepDirectoryWithoutExtension(p, sep, dot);
    }
  }

  lemma {:induction false} KeepDirectoryWithExtension(p: string, sep: int, dot: int)
    requires sep == RFind(p, Sep) && dot == RFind(p, Dot)
    requires dot > sep && NotAllDots(p[sep + 1..dot])
    ensures Root(p) == DirPrefix(p) + Root(Basename(p))
  {
    BasenameExtension(p, sep, dot);
    SplitExtBranch(p);
    assert DirPrefix(p) == p[..sep + 1];
    SliceJoin(p, 0, sep + 1, dot);
    assert p[0..dot] == p[..dot] && p[0..sep + 1] == p[..sep + 1];
  }

  lemma {:induction false} KeepDirectoryWithoutExtension(p: string, sep: int, dot: int)
    requires sep == RFind(p, Sep) && dot == RFind(p, Dot)
    requires !(dot > sep && NotAllDots(p[sep + 1..dot]))
    ensures Root(p) == DirPrefix(p) + Root(Basename(p))
  {
    CommuteWithoutExtension(p, sep, dot);
    SplitExtBranch(p);
    assert Root(p) == p;
  }

  /** `a.tar.gz` loses only its last extension. */
  lemma DoubleExtensionExample()
    ensures SplitExt("a.tar.gz") == ("a.tar", ".gz")
  {
    var p := "a.tar.gz";
    RFindIs(p, Sep, -1);
    RFindIs(p, Dot, 5);
    assert p[-1 + 1..5][0] != Dot;
    SplitExtBranch(p);
    assert p[..5] == "a.tar" && p[5..] == ".gz";
  }

  /** A name whose only dot is its first character has no extension. */
  lemma HiddenFileExample()
    ensures SplitExt(".hidden") == (".hidden", "")
  {
    var p := ".hidden";
    RFindIs(p, Sep, -1);
    RFindIs(p, Dot, 0);
    SplitExtBranch(p);
  }

  /** A dot in a directory name is not an extension of the file. */
  lemma DottedDirectoryExample()
    ensures SplitExt("v1.2/readme") == ("v1.2/readme", "")
  {
    var p := "v1.2/readme";
    RFindIs(p, Sep, 4);
    RFindIs(p, Dot, 2);
    SplitExtBranch(p);
  }
}

=== FILE: sizetext.dfy ===
/**
 * `thumbnail_size_text` in docs/lambda-function.py: the size of the encoded
 * thumbnail in bytes below 1024, in kilobytes below 1024 * 1024 and in
 * megabytes from there on. A size in bytes is written as the exact decimal
 * number followed by " B"; a size in kilobytes or megabytes as the amount
 * with two decimals followed by " KB" or " MB".
 *
 * The amount is `size / 1024` or `size / (1024 * 1024)` as a double. Both
 * divisors are powers of two, so for every size below 2^53 bytes the double
 * holds the quotient exactly, and `:.2f` rounds its exact value to the
 * nearest hundredth, a tie going to the even one. That is what is modelled.
 */
module SizeText {

  const KiB: nat := 1024
  const MiB: nat := 1024 * 1024

  datatype Unit = B | KB | MB

  /** Units in increasing order of size. */
  function Rank(u: Unit): nat {
    match u
    case B => 0
    case KB => 1
    case MB => 2
  }

  /**
   * The band chosen for `size` bytes: the largest unit of which the size is
   * at least one whole, with megabytes the largest there is.
   */
  function Band(size: nat): (u: Unit)
    ensures u == B <==> size < KiB
    ensures u == KB <==> KiB <= size < MiB
    ensures u == MB <==> MiB <= size
  {
    if size < KiB then B
    else if size < KiB * KiB then KB
    else MB
  }

  /** A larger size never gets a smaller unit. */
  lemma BandMonotone(a: nat, b: nat)
    requires a <= b
    ensures Rank(Band(a)) <= Rank(Band(b))
  {
  }

  /** The bytes in one unit. */
  function Scale(u: Unit): nat {
    match u
    case B => 1
    case KB => KiB
    case MB => MiB
  }

  /** The text that follows the amount. */
  function UnitText(u: Unit): string {
    match u
    case B => " B"
    case KB => " KB"
    case MB => " MB"
  }

  /**
   * `n / d` rounded to the nearest whole number, a tie going to the even
   * one: the result is within half of `d` of `n` when multiplied by `d`, and
   * even when it lies exactly half of `d` away.
   */
  function RoundHalfEven(n: nat, d: nat): (q: nat)
    requires d > 0
    ensures 2 * n <= 2 * (q * d) + d && 2 * (q * d) <= 2 * n + d
    ensures (2 * (q * d) == 2 * n + d || 2 * (q * d) + d == 2 * n) ==> q % 2 == 0
  {
    var q0, r := n / d, n % d;
    var m := q0 * d;
    assert n == m + r;
    MulSucc(q0, d);
    if 2 * r < d then q0
    else if 2 * r > d then q0 + 1
    else if q0 % 2 == 0 then q0
    else q0 + 1
  }

  lemma MulSucc(q: nat, d: nat)
    ensures (q + 1) * d == q * d + d
  {
  }

  /** The amount shown for `size` bytes, in hundredths of its unit. */
  function Hundredths(size: nat): nat {
    RoundHalfEven(100 * size, Scale(Band(size)))
  }

  function Digit(d: nat): (c: char)
    requires d < 10
    ensures '0' <= c <= '9' && (c as int) - ('0' as int) == d
  {
    (('0' as int) + d) as char
  }

  predicate IsDigits(s: string) {
    forall i :: 0 <= i < |s| ==> '0' <= s[i] <= '9'
  }

  /** `str(n)` for a natural number: its decimal digits, most significant first. */
  function Decimal(n: nat): (s: string)
    ensures |s| >= 1 && IsDigits(s)
    ensures |s| > 1 ==> s[0] != '0'
  {
    if n < 10 then [Digit(n)] else Decimal(n / 10) + [Digit(n % 10)]
  }

  /** The value of a string of decimal digits. */
  function ParseDecimal(s: string): nat
    requires IsDigits(s)
  {
    if |s| == 0 then 0
    else 10 * ParseDecimal(s[..|s| - 1]) + ((s[|s| - 1] as int) - ('0' as int))
  }

  /** Reading back the decimal text of a number gives the number. */
  lemma {:induction false} DecimalRoundTrip(n: nat)
    ensures ParseDecimal(Decimal(n)) == n
  {
    if n >= 10 {
      var s := Decimal(n);
      DecimalRoundTrip(n / 10);
      assert s[..|s| - 1] == Decimal(n / 10);
    }
  }

  /** A number of hundredths with two decimals: the whole part, a dot, then exactly two digits. */
  function Fixed2(h: nat): (s: string)
    ensures |s| >= 4 && s[|s| - 3] == '.'
    ensures IsDigits(s[..|s| - 3]) && IsDigits(s[|s| - 2..])
    ensures |s| - 3 > 1 ==> s[0] != '0'
  {
    var whole := Decimal(h / 100);
    var s := whole + "." + [Digit(h / 10 % 10), Digit(h % 10)];
    assert s[..|s| - 3] == whole;
    s
  }

  /** The value, in hundredths, of a text with two decimals. */
  function ParseFixed2(s: string): nat
    requires |s| >= 3 && IsDigits(s[..|s| - 3]) && IsDigits(s[|s| - 2..])
  {
    100 * ParseDecimal(s[..|s| - 3]) + ParseDecimal(s[|s| - 2..])
  }

  /** Two digits read back as their value. */
  lemma TwoDigits(x: nat, y: nat)
    requires x < 10 && y < 10
    ensures IsDigits([Digit(x), Digit(y)]) && ParseDecimal([Digit(x), Digit(y)]) == 10 * x + y
  {
    var t := [Digit(x), Digit(y)];
    assert t[..1] == [Digit(x)] && t[..1][..0] == [];
    assert ParseDecimal(t[..1]) == x;
    assert ParseDecimal(t) == 10 * ParseDecimal(t[..1]) + y;
  }

  /** A number is its hundreds, its tens digit and its units digit. */
  lemma HundredsTensUnits(h: nat)
    ensures 100 * (h / 100) + 10 * (h / 10 % 10) + h % 10 == h
  {
    var t := h / 10;
    assert h == 10 * t + h % 10;
    assert t == 10 * (t / 10) + t % 10;
    assert t / 10 == h / 100;
  }

  /** Reading back a number of hundredths written with two decimals gives the number. */
  lemma Fixed2RoundTrip(h: nat)
    ensures ParseFixed2(Fixed2(h)) == h
  {
    var s := Fixed2(h);
    var whole, tail := Decimal(h / 100), [Digit(h / 10 % 10), Digit(h % 10)];
    assert s == whole + "." + tail;
    assert s[..|s| - 3] == whole && s[|s| - 2..] == tail;
    DecimalRoundTrip(h / 100);
    TwoDigits(h / 10 % 10, h % 10);
    HundredsTensUnits(h);
  }

  /** The text of a size: the exact number of bytes, or the two-decimal amount of its unit, then the unit. */
  function SizeText(size: nat): (t: string)
    ensures var u := UnitText(Band(size)); |t| > |u| && t[|t| - |u|..] == u
  {
    var u := Band(size);
    var amount := if u == B then Decimal(size) else Fixed2(Hundredths(size));
    var t := amount + UnitText(u);
    assert t[|t| - |UnitText(u)|..] == UnitText(u);
    t
  }

  /**
   * In the bytes band the text is the size in decimal, at most four digits
   * without leading zeros, followed by " B", and the number read back from it
   * is the size.
   */
  lemma {:induction false} ExactTextRoundTrip(size: nat)
    requires size < KiB
    ensures var t := SizeText(size);
      && 3 <= |t| <= 6 && t[|t| - 2..] == " B"
      && IsDigits(t[..|t| - 2]) && ParseDecimal(t[..|t| - 2]) == size
      && (|t| > 3 ==> t[0] != '0')
  {
    var d := Decimal(size);
    DecimalRoundTrip(size);
    DecimalLength(size, 4);
    var t := d + " B";
    assert t[..|t| - 2] == d;
    assert t[|t| - 2..] == " B";
  }

  /**
   * From 1024 bytes on, the text is an amount with two decimals followed by
   * the unit, and the amount read back is the size in that unit rounded to
   * the nearest hundredth, a tie going to the even hundredth.
   */
  lemma ScaledTextRoundTrip(size: nat)
    requires KiB <= size
    ensures var u, t := Band(size), SizeText(size);
      var n := |t| - |UnitText(u)|;
      && t[n..] == UnitText(u) && n >= 4 && t[n - 3] == '.'
      && IsDigits(t[..n - 3]) && IsDigits(t[n - 2..n])
      && (n - 3 > 1 ==> t[0] != '0')
      && var h, d := ParseFixed2(t[..n]), Scale(u);
      && 2 * (100 * size) <= 2 * (h * d) + d && 2 * (h * d) <= 2 * (100 * size) + d
      && ((2 * (h * d) == 2 * (100 * size) + d || 2 * (h * d) + d == 2 * (100 * size)) ==> h % 2 == 0)
  {
    var u, t := Band(size), SizeText(size);
    var a := Fixed2(Hundredths(size));
    assert t == a + UnitText(u);
    var n := |t| - |UnitText(u)|;
    assert t[..n] == a;
    Fixed2RoundTrip(Hundredths(size));
  }

  /**
   * The kilobyte amount runs from 1.00 up to 1024.00: sizes just below
   * 1024 * 1024 bytes round up to the full 1024.00 rather than moving to the
   * megabyte band. The megabyte amount is at least 1.00.
   */
  lemma ShownAmountRange(size: nat)
    ensures Band(size) == KB ==> 100 <= Hundredths(size) <= 102400
    ensures Band(size) == MB ==> 100 <= Hundredths(size)
  {
  }

  /** 1048575 bytes, one byte below a megabyte, are shown as 1024.00 KB. */
  lemma TopOfKilobytesExample()
    ensures SizeText(1048575) == "1024.00 KB"
  {
    assert Hundredths(1048575) == 102400;
    assert Decimal(1024) == "1024";
  }

  /** 1152 bytes are 1.125 KB exactly, a tie, and are shown as 1.12 KB. */
  lemma TieToEvenDownExample()
    ensures SizeText(1152) == "1.12 KB"
  {
    assert Hundredths(1152) == RoundHalfEven(115200, 1024) == 112;
    assert Decimal(1) == "1";
    assert Fixed2(112) == "1.12";
  }

  /** 1408 bytes are 1.375 KB exactly, a tie, and are shown as 1.38 KB. */
  lemma TieToEvenUpExample()
    ensures SizeText(1408) == "1.38 KB"
  {
    assert Hundredths(1408) == RoundHalfEven(140800, 1024) == 138;
    assert Decimal(1) == "1";
    assert Fixed2(138) == "1.38";
  }

  /** A number below 10^k has at most k digits. */
  lemma {:induction false} DecimalLength(n: nat, k: nat)
    requires n < Pow10(k)
    ensures |Decimal(n)| <= if k == 0 then 1 else k
  {
    if n >= 10 {
      assert Pow10(1) == 10 * Pow10(0) == 10;
      assert k >= 2;
      assert n / 10 < Pow10(k - 1);
      DecimalLength(n / 10, k - 1);
    }
  }

  function Pow10(k: nat): (p: nat)
    ensures p >= 1
  {
    if k == 0 then 1 else 10 * Pow10(k - 1)
  }
}

=== FILE: thumbkey.dfy ===
/**
 * How each handler names the thumbnail it stores: `thumbnails/<stem>_thumb.jpg`,
 * where the stem is the source key without its extension. The handler in
 * docs/lambda-function.py keeps only the file name of that stem; the one in
 * lamcode.py keeps its directory path too.
 */
module ThumbKey {
  import opened PosixPath

  const Prefix: string := "thumbnails/"
  const Suffix: string := "_thumb.jpg"

  /** The naming rule of each handler. */
  datatype Rule =
    | NameOnly       // docs/lambda-function.py
    | KeepDirectory  // lamcode.py

  /** `key` starts with the thumbnail folder and ends with the thumbnail suffix. */
  predicate ThumbShaped(key: string) {
    |key| >= |Prefix| + |Suffix| && key[..|Prefix|] == Prefix && key[|key| - |Suffix|..] == Suffix
  }

  /** The part of a thumbnail key between its prefix and its suffix. */
  function Stem(key: string): string
    requires ThumbShaped(key)
  {
    key[|Prefix|..|key| - |Suffix|]
  }

  /** Wrapping a stem in prefix and suffix gives a thumbnail key that gives the stem back. */
  lemma WrapStem(stem: string)
    ensures ThumbShaped(Prefix + stem + Suffix) && Stem(Prefix + stem + Suffix) == stem
  {
    var key := Prefix + stem + Suffix;
    assert key[..|Prefix|] == Prefix;
    assert key[|key| - |Suffix|..] == Suffix;
    assert key[|Prefix|..|key| - |Suffix|] == stem;
  }

  /** The key the docs handler derives: the file name of the key, without extension. */
  function DocsKey(k: string): (r: string)
    ensures ThumbShaped(r) && Sep !in Stem(r)
    ensures Stem(r) + Ext(Basename(k)) == Basename(k)
  {
    var stem := Basename(Root(k));
    WrapStem(stem);
    BasenameRootCommute(k);
    Prefix + stem + Suffix
  }

  /** The key the lamcode handler derives: the whole key, directories included, without extension. */
  function LamcodeKey(k: string): (r: string)
    ensures ThumbShaped(r)
    ensures Stem(r) + Ext(k) == k
    ensures Stem(r)[..|DirPrefix(k)|] == DirPrefix(k)
  {
    var stem := Root(k);
    WrapStem(stem);
    RootKeepsDirectory(k);
    Prefix + stem + Suffix
  }

  /** The destination key under either rule. */
  function Destination(rule: Rule, k: string): (r: string)
    ensures ThumbShaped(r)
  {
    match rule
    case NameOnly => DocsKey(k)
    case KeepDirectory => LamcodeKey(k)
  }

  /**
   * Two source keys share a docs thumbnail exactly when their extension-less
   * file names agree: `a/cat.jpg` and `b/cat.png` overwrite one another.
   */
  lemma {:induction false} DocsKeySameIff(k1: string, k2: string)
    ensures DocsKey(k1) == DocsKey(k2) <==> Basename(Root(k1)) == Basename(Root(k2))
  {
    WrapStem(Basename(Root(k1)));
    WrapStem(Basename(Root(k2)));
  }

  /** Two source keys share a lamcode thumbnail exactly when they agree up to the extension. */
  lemma {:induction false} LamcodeKeySameIff(k1: string, k2: string)
    ensures LamcodeKey(k1) == LamcodeKey(k2) <==> Root(k1) == Root(k2)
  {
    WrapStem(Root(k1));
    WrapStem(Root(k2));
  }

  /** The docs rule is the lamcode rule applied to the file name alone. */
  lemma {:induction false} DocsIsLamcodeOfBasename(k: string)
    ensures DocsKey(k) == LamcodeKey(Basename(k))
  {
    BasenameRootCommute(k);
  }

  /** The docs key ignores the directory part of the source key. */
  lemma {:induction false} DocsKeyIgnoresDirectory(k: string)
    ensures DocsKey(k) == DocsKey(Basename(k))
  {
    var b := Basename(k);
    RFindIs(b, Sep, -1);
    assert Basename(b) == b;
    DocsIsLamcodeOfBasename(k);
    DocsIsLamcodeOfBasename(b);
  }

  /** For a key without directories the two handlers store the thumbnail under the same key. */
  lemma {:induction false} FlatKeysAgree(k: string)
    requires Sep !in k
    ensures DocsKey(k) == LamcodeKey(k)
  {
    RFindIs(k, Sep, -1);
    assert Basename(k) == k;
    DocsIsLamcodeOfBasename(k);
  }
}
